=== FILE: README.md ===
# CouponsPlanet service worker: caching policy model

A Dafny model of the request-routing and caching policy of the CouponsPlanet service
worker (`sw.js`). The worker intercepts the page's requests. Each intercepted GET is
routed to one of four strategies:

- document: serve the cached copy and revalidate it in the background;
- static asset: cache first, with typed fallbacks;
- API: network first, falling back to a stale-marked cached copy;
- anything else: a plain fetch.

Install pre-caches the critical assets. Activation deletes caches left by older versions.
A sweep removes dynamic-cache entries whose `date` header is more than 24 hours old.

Everything is modelled with immutable values and pure functions:

- the cache storage is a map from cache name to partition, and a partition is a map from
  cache key to stored response, where the key of a request URL is the URL without its
  fragment, as the Cache API compares URLs (`CacheStore`);
- a fetch is represented by its outcome, `Reply(response)` or `Failure`, where `Failure`
  covers network errors and a strategy's timeout abort (`Http`);
- each strategy maps (storage, request, fetch outcome) to (response served, storage
  after its cache writes) (`Strategies`);
- the fetch handler, install, activation and the sweep are events on the storage, and
  `Worker.Run` applies a sequence of them (`Worker`).

Modules, leaf first: `Wrappers` (Option), `Strings` (`includes` / `endsWith`), `Http`,
`Config` (cache names, critical assets, maximum age), `CacheStore`, `Router`,
`Strategies`, `Lifecycle` (install, activate), `Sweeper` (`cleanupCache`), `Worker`.

Behaviour of sw.js worth noting:

- Install failure is not fatal. The `.catch` at sw.js:32-34 swallows an `addAll`
  rejection, so installation completes, but without the skip-waiting signal.
- Every cached API response served as a fallback is marked `stale`, whatever its age.
- The sweep reads the response's own `date` header, the date the server sent. Nothing
  records when an entry was written to the cache.
- Requests fall into four classes only: document, static asset, API and other. Nothing
  limits the size of what is cached.
- The only message handled is `CACHE_CLEANUP`, which runs the sweep.
- Only `analytics` / `tracking` in the pathname and `google-analytics` in the host name
  are excluded.
- The offline page is served with status 200.

Observations proved about the code as written:

- `status < 400` in the cache-first guard follows from `ok` (`Strategies.StaticStorableIsOk`).
- `url.includes('.js')` also matches `.json`, `manifest.json` and `cdn.jsdelivr.net`. So
  the last two static-asset tests never decide anything (`Router.StaticMarkersSubsumed`).
  A `.json` asset whose fetch fails, the manifest included, gets the JavaScript fallback
  body (`Strategies.JsonGetsScriptFallback`).

## Model

| member | source | states |
|---|---|---|
| Router.RouteOf | sw.js:88-111 | A request is passed through untouched exactly when its method is not GET or it is an analytics/tracking request; every other request gets a strategy |
| Router.RoutePriority | sw.js:103-132 | Document is chosen iff `isMainDocument`; cache-first iff not a document and `isStaticAsset`; network-first iff neither of those and `isAPIRequest`; `standardFetch` iff none holds |
| Router.FirstMatchIsFirst | sw.js:103-111 | An ordered rule list yields the strategy of the first applying rule, or the default exactly when none applies |
| Router.RouteIsOrderedRules | sw.js:103-111 | Routing of an intercepted request equals first-match over the rule list [document, static, API] with `standardFetch` as default |
| Router.BackendRootIsDocument | sw.js:103-132 | Every intercepted `supabase.co` URL ending in `/` is routed to the document strategy, not the API one |
| Router.BackendScriptIsStatic | sw.js:103-132 | Every intercepted, non-document `supabase.co` URL containing `.js` is routed cache-first, not network-first |
| Router.FirstMatchAt | sw.js:103-111 | A rule that applies, with no applying rule before it, decides the first-match result |
| Router.StaticMarkersSubsumed | sw.js:124-127 | Any URL containing `manifest.json` or `cdn.jsdelivr.net` already contains `.js` |
| Router.IsExcluded | sw.js:95-100 | A request is excluded exactly when `analytics` or `tracking` occurs in its pathname or `google-analytics` in its host name |
| Router.IsMainDocument | sw.js:115-120 | A request is a main document exactly when it is a navigation, has destination `document`, or its URL's last character is `/` or last five characters are `.html` |
| Router.IsStaticAsset | sw.js:122-128 | A request is a static asset exactly when `.js` or `.css` occurs in its URL (the other two markers contain `.js`) |
| Router.IsApiRequest | sw.js:130-132 | A request is an API request exactly when `supabase.co` occurs in its URL |
| Sweeper.DateOf | sw.js:362-365 | A missing or empty `date` header gives no date; otherwise the date is the parse of the header value |
| Sweeper.Expired | sw.js:364-366 | An entry is expired exactly when it has a parsed date more than 86,400,000 ms before `now`; an expired entry always has a non-empty `date` header |
| Worker.HandleFetch | sw.js:88-112 | Pass-through exactly for non-GET or excluded requests. Served: a static-cache hit for a document or static asset; otherwise the network answer when there is one; on failure the strategy's fallback (cached `index.html` or offline page, typed fallback, stale copy or JSON 503, plain 503). Written: exactly the ok network answers, at the request's key, in the static cache for a document and for a cache-first miss and in the dynamic cache for network-first; nothing else is written, a cache-first hit leaves the storage as it is, a failed fetch only opens the cache, and `standardFetch` writes nothing |
| Strategies.FastDocumentStrategy | sw.js:135-186 | A hit is served whatever the network does, and the refresh overwrites it only with an ok answer; a miss serves the network answer and caches it iff ok; on failure it serves the cached `./index.html`, else the offline page; nothing but that key is written |
| CacheStore.KeyOfIsPrefix | sw.js:139 | The key of a URL is its longest prefix without `#`: a key has no `#`, the URL continues with `#` after it, a key is its own key, and a URL without `#` is its own key |
| CacheStore.KeyOfFragment | sw.js:139 | A fragment-free URL followed by `#` and any fragment has that URL as its key |
| CacheStore.Open | sw.js:137-138 | Opening a cache creates it empty when it is absent and changes no existing cache |
| CacheStore.Match | sw.js:139 | A lookup finds an entry exactly when the URL's key is in the cache, and then returns that entry |
| CacheStore.Put | sw.js:147 | A store sets the URL's key to the response, creates the cache if needed, and keeps every other key and cache |
| Strategies.OfflinePageResponse | sw.js:181-184 | The offline page is an ok response whose only header is `content-type: text/html` |
| Worker.DocumentHitThenRefresh | sw.js:138-152 | Through the handler, a document hit is served unchanged and afterwards holds the ok refresh answer, or the old entry when the refresh is not ok |
| Strategies.UltraCacheFirstStrategy | sw.js:189-230 | A hit is served with the cache unchanged; a miss serves the network answer whatever its status and stores it iff ok; a failed fetch gets the typed fallback; nothing but that key is written |
| Strategies.StaticStorableIsOk | sw.js:202 | The guard `ok && status < 400` holds exactly when `ok` |
| Http.TextResponse | sw.js:215-228 | A text response has the given status and text body; it keeps the given headers when they name a content type and otherwise adds `text/plain;charset=UTF-8` |
| Strategies.StaticFallback | sw.js:215-228 | A URL with `.js` gets the JavaScript fallback; otherwise one with `.css` gets the CSS fallback; anything else gets 503 `Offline` |
| Strategies.JsonGetsScriptFallback | sw.js:216-219 | A URL containing `.json` gets the JavaScript fallback body and content type |
| Worker.StaticHitIgnoresNetwork | sw.js:191-197 | A static hit's response and resulting cache do not depend on the network outcome |
| Worker.StaticServedFromCacheAfterFetch | sw.js:191-210 | After a miss answered ok, the next request for that asset gets the same response and leaves the cache as it is, whatever the network does |
| Strategies.NetworkFirstStrategy | sw.js:233-280 | A network answer is served as is and stored in the dynamic cache iff ok; on failure a cached copy is served stale-marked, else the JSON 503; nothing but that key is written |
| Strategies.MarkStale | sw.js:258-267 | The stale copy keeps status, status text, body and every other header, and adds `x-cache-status: stale` |
| Strategies.ApiOfflineResponse | sw.js:270-278 | The API fallback without a cached copy has status 503 and a JSON body with `offline: true` and `cached: false` |
| Worker.ApiStaleRoundTrip | sw.js:244-267 | An ok API answer cached by one request is what a later failed request gets: same status and body, same headers apart from the stale marker |
| Strategies.StandardFetch | sw.js:283-289 | No cache is touched; the network answer is served, or 503 `Offline` on failure |
| Lifecycle.AddAll | sw.js:26 | All or nothing: every key is stored with its fetched response iff every fetch gives an ok response; other entries are kept |
| Config.Resolve | sw.js:7-11 | A `./`-relative path becomes the worker's directory URL followed by the rest of the path; any other string is left as it is |
| Lifecycle.CriticalUrls | sw.js:7-11 | The critical assets resolve to the worker's directory, its `index.html` and its `manifest.json` |
| Lifecycle.CriticalKeys | sw.js:7-11 | The critical assets' cache keys are their URLs' keys, position by position, and are the URLs themselves when the directory has no `#` |
| Lifecycle.Install | sw.js:22-35 | Skip-waiting is signalled iff every critical asset fetches ok; then the static cache holds exactly its previous keys plus the three critical keys, each with its fetched response, and every other entry keeps its response; otherwise the static cache is only opened; other caches are untouched |
| Worker.IndexHtmlIsCritical | sw.js:175 | The document fallback URL is the directory's `index.html`, and its key is one of the installed critical keys |
| Worker.OfflineNavigationServesIndex | sw.js:170-179 | With the index page cached, a failed document request for an uncached page gets that index page and leaves the storage unchanged |
| Worker.InstallThenOfflineNavigation | sw.js:170-179 | After a successful install, a failed navigation to an uncached page is answered with the installed `index.html` |
| Worker.ManifestIsStatic | sw.js:115-128 | A non-navigation, non-document request for the directory's `manifest.json` is routed cache-first |
| Worker.InstallThenFragmentNavigation | sw.js:135-143 | After a successful install, a document request for `dir#...` is answered with the installed root page whatever the network does |
| Worker.InstallThenManifestFromCache | sw.js:189-197 | After a successful install, the manifest request is served from the static cache for every network outcome |
| Lifecycle.Obsolete | sw.js:48-50 | A cache name is deleted iff it is not one of the three current names |
| Lifecycle.Activate | sw.js:45-55 | The surviving caches are exactly the current-named ones, with their contents unchanged |
| Lifecycle.ActivateCleanup | sw.js:45-56 | Walking the cache names deletes exactly the non-current names and keeps the current caches' contents |
| Lifecycle.ActivateIdempotent | sw.js:45-55 | The current caches survive, and a second activation deletes nothing |
| Lifecycle.ActivateUpgradeScenario | sw.js:2-4 | After an upgrade from v1.0, both old caches are deleted and nothing remains |
| Sweeper.Sweep | sw.js:353-371 | The dynamic cache keeps exactly its entries that are not expired; every other cache is unchanged |
| Sweeper.CleanupCache | sw.js:353-379 | Visiting each key of the dynamic cache and deleting expired entries yields the same storage as `Sweep` |
| Sweeper.SweepIdempotent | sw.js:360-371 | A second sweep at the same time removes nothing |
| Sweeper.UndatedSurvives | sw.js:362-364 | An entry without a usable `date` header survives any number of sweeps, unchanged |
| Sweeper.SweepBoundary | sw.js:358-366 | A dated entry is removed iff its date is strictly more than 24 hours before `now` |
| Worker.Step | sw.js:19-379 | An unclaimed request changes nothing; a fetch touches only the static and dynamic caches, install only the static cache and the sweep only the dynamic cache; activation keeps exactly the current-named caches, unchanged |
| Worker.HandlePreservesHealthy | sw.js:135-280 | The fetch handler stores only ok responses in the static and dynamic caches |
| Worker.StepPreservesHealthy | sw.js:19-379 | Fetch, install, activate and sweep each keep every stored static and dynamic response ok |
| Worker.RunPreservesHealthy | sw.js:19-384 | Any sequence of events, periodic sweeps included, keeps every stored static and dynamic response ok |

## Left out

- Timeouts (the 3000 ms and 8000 ms `AbortController` timers) are not modelled as time. An aborted fetch is the `Failure` outcome.
- The hourly `setInterval` is not modelled as a timer. A sweep is an explicit event with the current time as a parameter.
- Fire-and-forget `cache.put` calls and the document strategy's background refresh are treated as completing within the same step. Concurrency and interleaving with other requests are not modelled.
- Cache-storage failures are not modelled. The strategies' `try`/`catch` also routes errors of `caches.open` and `cache.match` to the fallback paths, but here every storage operation succeeds.
- `cache.put` rejects partial (206) responses and `Vary: *`, and `addAll` rejects duplicate requests. These rules of the Cache API are not modelled.
- Cache matching is by request URL without its fragment only. Vary headers and match options are not modelled, and a URL is not normalised beyond dropping the fragment.
- A fetch is a function of the cache key. The fragment is never sent over the network, so install fetches each critical asset by its key.
- Response bodies are opaque values. Body streams and `clone()` are not modelled.
- Header names are stored lower-case, as `Headers` normalises them. The marker header is therefore `x-cache-status`.
- Date parsing (`new Date(dateHeader).getTime()`) is the `parse` parameter. An unparseable date (`NaN`) is `None`, and such an entry is kept.
- The HTML and CSS of `getOfflinePage` are the opaque body `OfflinePage`.
- The `URL` constructor is not modelled. A request carries its pathname and host name as fields.
- Relative-URL resolution covers only the `./` form the worker uses. It resolves against the worker script's directory URL, which is a parameter.
- `preloadSecondaryAssets`, `clients.claim`, `skipWaiting` as a browser effect, the `message` listener wiring and all console logging are left out. They are browser and runtime plumbing.
- JavaScript numbers are modelled as unbounded integers. Millisecond dates are far below 2^53, where doubles are exact.

=== FILE: cache_store.dfy ===
/** The browser's cache storage, as a map from cache name to partition, each partition a
    map from cache key to stored response. The cache key of a request URL is the URL
    without its fragment, which the Cache API ignores when it compares URLs. Each
    operation is atomic here; the storage's own asynchrony and failures are outside the
    model. */
module CacheStore {
  import opened Wrappers
  import opened Http

  type Partition = map<string, Response>
  type Storage = map<string, Partition>

  /** The contents of cache `name`, empty when it does not exist. */
  function PartitionOf(s: Storage, name: string): Partition
  {
    if name in s then s[name] else map[]
  }

  /** `caches.open(name)`: creates the cache when it is absent and changes nothing else. */
  function Open(s: Storage, name: string): (t: Storage)
    ensures t.Keys == s.Keys + {name}
    ensures forall n :: n in s ==> t[n] == s[n]
    ensures t[name] == PartitionOf(s, name)
  {
    if name in s then s else s[name := map[]]
  }

  /** The cache key of `url`: the URL up to its first `#`, that is, without fragment. */
  function KeyOf(url: string): string
    decreases |url|
  {
    if |url| == 0 || url[0] == '#' then ""
    else [url[0]] + KeyOf(url[1..])
  }

  /** The key is the longest prefix of `url` without `#`, and a key is its own key. */
  lemma {:induction false} KeyOfIsPrefix(url: string)
    ensures '#' !in KeyOf(url)
    ensures KeyOf(url) <= url
    ensures |KeyOf(url)| < |url| ==> url[|KeyOf(url)|] == '#'
    ensures KeyOf(KeyOf(url)) == KeyOf(url)
    ensures '#' !in url ==> KeyOf(url) == url
    decreases |url|
  {
    if |url| > 0 && url[0] != '#' {
      KeyOfIsPrefix(url[1..]);
      assert KeyOf(url) == [url[0]] + KeyOf(url[1..]);
    }
  }

  /** A URL made of a fragment-free part and a fragment has that part as its key. */
  lemma {:induction false} KeyOfFragment(base: string, fragment: string)
    requires '#' !in base
    ensures KeyOf(base + "#" + fragment) == base
  {
    var u := base + "#" + fragment;
    if |base| > 0 {
      assert base[0] in base;
      assert u[1..] == base[1..] + "#" + fragment;
      KeyOfFragment(base[1..], fragment);
    }
  }

  /** `cache.match(url)` on cache `name`: looks up the key of `url`. */
  function Match(s: Storage, name: string, url: string): (r: Option<Response>)
    ensures r.Some? <==> KeyOf(url) in PartitionOf(s, name)
    ensures r.Some? ==> r.value == PartitionOf(s, name)[KeyOf(url)]
  {
    var p := PartitionOf(s, name);
    if KeyOf(url) in p then Some(p[KeyOf(url)]) else None
  }

  /** `cache.put(url, resp)` on cache `name`, which it opens first: the entry at the key
      of `url` is replaced wholesale and nothing else changes. */
  function Put(s: Storage, name: string, url: string, resp: Response): (t: Storage)
    ensures t.Keys == s.Keys + {name}
    ensures forall n :: n in s && n != name ==> t[n] == s[n]
    ensures t[name].Keys == PartitionOf(s, name).Keys + {KeyOf(url)}
    ensures t[name][KeyOf(url)] == resp
    ensures forall k :: k in PartitionOf(s, name) && k != KeyOf(url) ==> t[name][k] == PartitionOf(s, name)[k]
  {
    s[name := PartitionOf(s, name)[KeyOf(url) := resp]]
  }

  /** `t` differs from `s` at most by creating cache `name` and by the entry at `key` in it. */
  ghost predicate OnlyWrites(s: Storage, t: Storage, name: string, key: string)
  {
    && s.Keys <= t.Keys <= s.Keys + {name}
    && (forall n :: n in s && n != name ==> t[n] == s[n])
    && (forall k :: k != key ==> (k in PartitionOf(t, name) <==> k in PartitionOf(s, name)))
    && (forall k :: k != key && k in PartitionOf(s, name) ==>
          PartitionOf(t, name)[k] == PartitionOf(s, name)[k])
  }

  /** Every response stored in `p` is `ok`. */
  ghost predicate AllOk(p: Partition)
  {
    forall k :: k in p ==> p[k].Ok()
  }

  /** The entry at `key` of cache `name` is, after the change from `s` to `t`, either
      absent, the one `s` held, or an ok response. */
  ghost predicate KeepsOrWritesOk(s: Storage, t: Storage, name: string, key: string)
  {
    key in PartitionOf(t, name) ==>
      || PartitionOf(t, name)[key].Ok()
      || (key in PartitionOf(s, name) && PartitionOf(t, name)[key] == PartitionOf(s, name)[key])
  }

  /** A change that writes only `key` of cache `name`, and writes it only with an ok
      response, keeps that cache all-ok and leaves every other cache as it was. */
  lemma OnlyWritesKeepsAllOk(s: Storage, t: Storage, name: string, key: string)
    requires AllOk(PartitionOf(s, name))
    requires OnlyWrites(s, t, name, key) && KeepsOrWritesOk(s, t, name, key)
    ensures AllOk(PartitionOf(t, name))
    ensures forall n :: n != name ==> PartitionOf(t, n) == PartitionOf(s, n)
  {
    forall k | k in PartitionOf(t, name) ensures PartitionOf(t, name)[k].Ok() {
      if k != key {
        assert k in PartitionOf(s, name);
      }
    }
  }
}

=== FILE: config.dfy ===
/** The worker's fixed configuration: the three versioned cache names, the critical
    assets pre-cached on install, and the maximum age of a dynamic entry. */
module Config {

  const CacheName := "couponsplanet-perf-v2.0"
  const StaticCache := "couponsplanet-static-v2.0"
  const DynamicCache := "couponsplanet-dynamic-v2.0"

  /** The names activation keeps; every other cache is from an older version. */
  const CurrentNames: set<string> := {StaticCache, DynamicCache, CacheName}

  /** The critical assets, relative to the worker script. */
  const CriticalAssets: seq<string> := ["./", "./index.html", "./manifest.json"]

  /** The document strategy's offline fallback key, relative to the worker script. */
  const IndexHtml := "./index.html"

  /** 24 hours in milliseconds. */
  const MaxAgeMs := 24 * 60 * 60 * 1000

  /** Resolves a `./`-relative URL against the directory URL `dir` (ending in `/`) of the
      worker script; any other string is taken to be absolute already. */
  function Resolve(dir: string, rel: string): (url: string)
    ensures |rel| >= 2 && rel[..2] == "./" ==> url == dir + rel[2..]
    ensures !(|rel| >= 2 && rel[..2] == "./") ==> url == rel
  {
    if |rel| >= 2 && rel[..2] == "./" then dir + rel[2..] else rel
  }
}

=== FILE: http.dfy ===
/** Requests, responses and the outcome of one network fetch, as the worker sees them.
    The URL parser, the body streams and the fetch primitive itself are outside the model:
    a request arrives with its URL already split into pathname and hostname, a body is an
    opaque value, and a fetch is represented by its outcome. */
module Http {

  /** Header names are kept lower-case, as the Fetch `Headers` object normalises them. */
  type Headers = map<string, string>

  const ContentType := "content-type"
  const CacheStatusHeader := "x-cache-status"
  const DateHeader := "date"

  /** A response body. Network bodies are opaque streams; the worker's own bodies are
      strings, the built-in offline page, or the JSON error object of the API fallback. */
  datatype Body =
    | Stream(id: nat)
    | Text(content: string)
    | OfflinePage
    | Json(error: string, offline: bool, cached: bool)

  datatype Response = Response(status: int, statusText: string, headers: Headers, body: Body)
  {
    /** `response.ok`: the status is in the range 200 to 299. */
    predicate Ok()
    {
      200 <= status <= 299
    }
  }

  /** An intercepted request: `request.method` (as `httpMethod`), `request.url`, `request.mode`,
      `request.destination`, and the `pathname` and `hostname` of `new URL(request.url)`. */
  datatype Request = Request(
    httpMethod: string,
    url: string,
    pathname: string,
    hostname: string,
    mode: string,
    destination: string)

  /** The outcome of one `fetch`: a response of any status, or a rejection
      (a network error, or an abort when the strategy's timeout fires). */
  datatype Network = Reply(response: Response) | Failure

  /** `new Response(text, { status, headers })`: a string body with no explicit
      content type is labelled `text/plain;charset=UTF-8`, as the Fetch standard's
      body extraction does. */
  function TextResponse(status: int, text: string, headers: Headers): (r: Response)
    ensures r.status == status && r.body == Text(text)
    ensures ContentType in headers ==> r.headers == headers
    ensures ContentType !in headers ==> r.headers == headers[ContentType := "text/plain;charset=UTF-8"]
  {
    var h := if ContentType in headers then headers else headers[ContentType := "text/plain;charset=UTF-8"];
    Response(status, "", h, Text(text))
  }
}

=== FILE: lifecycle.dfy ===
/** The install and activate steps: pre-caching the critical assets in the static cache,
    and deleting every cache whose name is not one of the current version's three names. */
module Lifecycle {
  import opened Wrappers
  import opened Http
  import opened CacheStore
  import opened Config

  /** `cache.addAll` accepts a fetch outcome only when it is an ok response. */
  predicate Cacheable(n: Network)
  {
    n.Reply? && n.response.Ok()
  }

  /** `cache.addAll(keys)`, with `fetch` giving the outcome of fetching each key: all or
      nothing — every key is stored when every fetch is cacheable, and the cache is left
      as it was (`None`) as soon as one is not. */
  function AddAll(p: Partition, keys: seq<string>, fetch: string -> Network): (r: Option<Partition>)
    ensures r.Some? <==> forall i :: 0 <= i < |keys| ==> Cacheable(fetch(keys[i]))
    ensures r.Some? ==> r.value.Keys == p.Keys + set k | k in keys
    ensures r.Some? ==> forall k :: k in keys ==> r.value[k] == fetch(k).response
    ensures r.Some? ==> forall k :: k in p && k !in keys ==> r.value[k] == p[k]
    decreases |keys|
  {
    if |keys| == 0 then Some(p)
    else if !Cacheable(fetch(keys[0])) then None
    else
      match AddAll(p, keys[1..], fetch)
      case None => None
      case Some(q) => Some(q[keys[0] := fetch(keys[0]).response])
  }

  /** The critical asset URLs, resolved against the worker's directory `dir`. */
  function CriticalUrls(dir: string): (urls: seq<string>)
    ensures urls == [dir, dir + "index.html", dir + "manifest.json"]
  {
    assert CriticalAssets[0][..2] == "./" && CriticalAssets[0][2..] == "";
    assert CriticalAssets[1][..2] == "./" && CriticalAssets[1][2..] == "index.html";
    assert CriticalAssets[2][..2] == "./" && CriticalAssets[2][2..] == "manifest.json";
    var urls := seq(|CriticalAssets|, i requires 0 <= i < |CriticalAssets| => Resolve(dir, CriticalAssets[i]));
    assert urls[0] == dir + "" == dir;
    assert urls[1] == dir + "index.html";
    assert urls[2] == dir + "manifest.json";
    urls
  }

  /** The cache keys of the critical assets. A fragment is never sent over the network,
      so each asset is fetched by its key as well. */
  function CriticalKeys(dir: string): (keys: seq<string>)
    ensures |keys| == |CriticalUrls(dir)|
    ensures forall i :: 0 <= i < |keys| ==> keys[i] == KeyOf(CriticalUrls(dir)[i])
    ensures keys == [KeyOf(dir), KeyOf(dir + "index.html"), KeyOf(dir + "manifest.json")]
    ensures '#' !in dir ==> keys == CriticalUrls(dir)
  {
    assert '#' !in dir ==> '#' !in dir + "index.html" && '#' !in dir + "manifest.json";
    KeyOfIsPrefix(dir);
    KeyOfIsPrefix(dir + "index.html");
    KeyOfIsPrefix(dir + "manifest.json");
    [KeyOf(dir), KeyOf(dir + "index.html"), KeyOf(dir + "manifest.json")]
  }

  datatype Installed = Installed(storage: Storage, skipWaiting: bool)

  /** The install step: open the static cache, add the critical assets, then signal
      `skipWaiting`. A failed `addAll` is caught and logged, so installation still
      completes, with the static cache as it was and without the skip-waiting signal. */
  function Install(s: Storage, dir: string, fetch: string -> Network): (r: Installed)
    ensures r.skipWaiting <==> forall k :: k in CriticalKeys(dir) ==> Cacheable(fetch(k))
    ensures r.skipWaiting ==>
              forall k :: k in CriticalKeys(dir) ==>
                k in PartitionOf(r.storage, StaticCache) && PartitionOf(r.storage, StaticCache)[k] == fetch(k).response
    ensures r.skipWaiting ==>
              PartitionOf(r.storage, StaticCache).Keys == PartitionOf(s, StaticCache).Keys + set k | k in CriticalKeys(dir)
    ensures forall k :: k in PartitionOf(s, StaticCache) && k !in CriticalKeys(dir) ==>
              k in PartitionOf(r.storage, StaticCache) &&
              PartitionOf(r.storage, StaticCache)[k] == PartitionOf(s, StaticCache)[k]
    ensures !r.skipWaiting ==> r.storage == Open(s, StaticCache)
    ensures r.storage.Keys == s.Keys + {StaticCache}
    ensures forall n :: n in s && n != StaticCache ==> r.storage[n] == s[n]
    ensures forall k :: k in PartitionOf(s, StaticCache) ==> k in PartitionOf(r.storage, StaticCache)
  {
    var s1 := Open(s, StaticCache);
    var keys := CriticalKeys(dir);
    match AddAll(s1[StaticCache], keys, fetch)
    case Some(p) => Installed(s1[StaticCache := p], true)
    case None =>
      assert exists i :: 0 <= i < |keys| && !Cacheable(fetch(keys[i]));
      Installed(s1, false)
  }

  /** The caches activation deletes: every name that is not a current one. */
  function Obsolete(names: set<string>): (d: set<string>)
    ensures d <= names
    ensures forall n :: n in names ==> (n in d <==> n !in CurrentNames)
  {
    set n | n in names && n !in CurrentNames
  }

  /** Activation cleanup as a function of the storage. */
  function Activate(s: Storage): (t: Storage)
    ensures t.Keys == s.Keys - Obsolete(s.Keys)
    ensures forall n :: n in t ==> t[n] == s[n]
  {
    map n | n in s && n !in Obsolete(s.Keys) :: s[n]
  }

  /** The activate handler's cleanup: `caches.keys()` is walked and every obsolete cache
      is deleted; `deleted` is the set of names it deleted. */
  method ActivateCleanup(s: Storage) returns (deleted: set<string>, t: Storage)
    ensures forall n :: n in deleted <==> n in s && n !in CurrentNames
    ensures forall n :: n in CurrentNames && n in s ==> n in t && t[n] == s[n]
    ensures t == Activate(s)
  {
    deleted := {};
    t := s;
    var pending := s.Keys;
    while pending != {}
      invariant pending <= s.Keys
      invariant deleted == Obsolete(s.Keys - pending)
      invariant t.Keys == s.Keys - deleted
      invariant forall n :: n in t ==> t[n] == s[n]
      decreases pending
    {
      var name :| name in pending;
      if name !in CurrentNames {
        t := map n | n in t && n != name :: t[n];
        deleted := deleted + {name};
      }
      pending := pending - {name};
    }
  }

  /** The current caches survive activation, and activating again deletes nothing. */
  lemma ActivateIdempotent(s: Storage)
    ensures forall n :: n in CurrentNames && n in s ==> n in Activate(s) && Activate(s)[n] == s[n]
    ensures Obsolete(Activate(s).Keys) == {}
    ensures Activate(Activate(s)) == Activate(s)
  {
  }

  /** An upgrade from the previous version: both of its caches are deleted and nothing else. */
  lemma ActivateUpgradeScenario(p: Partition, q: Partition)
    ensures var s := map["couponsplanet-static-v1.0" := p, "couponsplanet-dynamic-v1.0" := q];
            Obsolete(s.Keys) == s.Keys && Activate(s) == map[]
  {
  }
}

=== FILE: router.dfy ===
/** The fetch handler's decision: whether to intercept a request at all and, if so,
    which of the four strategies serves it. The resource predicates are tried in order
    and the first that holds wins. */
module Router {
  import opened Strings
  import opened Http

  datatype Strategy = Document | CacheFirst | NetworkFirst | Standard

  datatype Route = PassThrough | Use(strategy: Strategy)

  /** Analytics and tracking requests are never intercepted: those whose pathname
      contains `analytics` or `tracking`, or whose host name contains `google-analytics`. */
  function IsExcluded(req: Request): (b: bool)
    ensures b <==> || (exists i :: OccursAt(req.pathname, "analytics", i))
                   || (exists i :: OccursAt(req.pathname, "tracking", i))
                   || (exists i :: OccursAt(req.hostname, "google-analytics", i))
  {
    || Includes(req.pathname, "analytics")
    || Includes(req.pathname, "tracking")
    || Includes(req.hostname, "google-analytics")
  }

  /** The handler claims the request: a GET that is not excluded. */
  predicate Intercepts(req: Request)
  {
    req.httpMethod == "GET" && !IsExcluded(req)
  }

  /** `isMainDocument`: a navigation, a document destination, or a URL whose last
      character is `/` or whose last five characters are `.html`. */
  function IsMainDocument(req: Request): (b: bool)
    ensures b <==> || req.mode == "navigate"
                   || req.destination == "document"
                   || (|req.url| >= 1 && req.url[|req.url| - 1] == '/')
                   || (|req.url| >= 5 && req.url[|req.url| - 5..] == ".html")
  {
    || req.mode == "navigate"
    || req.destination == "document"
    || EndsWith(req.url, ".html")
    || EndsWith(req.url, "/")
  }

  /** `isStaticAsset`. Its last two markers both contain `.js`, so a URL is a static
      asset exactly when it contains `.js` or `.css`. */
  function IsStaticAsset(req: Request): (b: bool)
    ensures b <==> (exists i :: OccursAt(req.url, ".js", i)) || (exists i :: OccursAt(req.url, ".css", i))
  {
    StaticMarkersSubsumed(req.url);
    || Includes(req.url, ".js")
    || Includes(req.url, ".css")
    || Includes(req.url, "cdn.jsdelivr.net")
    || Includes(req.url, "manifest.json")
  }

  /** `isAPIRequest`: the URL contains the backend host suffix `supabase.co`. */
  function IsApiRequest(req: Request): (b: bool)
    ensures b <==> exists i :: OccursAt(req.url, "supabase.co", i)
  {
    Includes(req.url, "supabase.co")
  }

  /** The fetch handler's routing: pass through, or the strategy of the first resource
      predicate that holds, with `standardFetch` when none does. */
  function RouteOf(req: Request): (r: Route)
    ensures r.PassThrough? <==> req.httpMethod != "GET" || IsExcluded(req)
  {
    if req.httpMethod != "GET" then PassThrough
    else if IsExcluded(req) then PassThrough
    else if IsMainDocument(req) then Use(Document)
    else if IsStaticAsset(req) then Use(CacheFirst)
    else if IsApiRequest(req) then Use(NetworkFirst)
    else Use(Standard)
  }

  /** A classification rule: a resource predicate and the strategy it selects. */
  datatype Rule = Rule(applies: Request -> bool, strategy: Strategy)

  /** The worker's rules in priority order. */
  function Rules(): seq<Rule>
  {
    [Rule(IsMainDocument, Document), Rule(IsStaticAsset, CacheFirst), Rule(IsApiRequest, NetworkFirst)]
  }

  /** The strategy of the first rule that applies, or `fallback` when none does. */
  function FirstMatch(rules: seq<Rule>, req: Request, fallback: Strategy): Strategy
    decreases |rules|
  {
    if |rules| == 0 then fallback
    else if rules[0].applies(req) then rules[0].strategy
    else FirstMatch(rules[1..], req, fallback)
  }

  /** A rule that applies, with no applying rule before it, decides the match. */
  lemma {:induction false} FirstMatchAt(rules: seq<Rule>, req: Request, fallback: Strategy, i: nat)
    requires i < |rules| && rules[i].applies(req)
    requires forall j :: 0 <= j < i ==> !rules[j].applies(req)
    ensures FirstMatch(rules, req, fallback) == rules[i].strategy
    decreases i
  {
    if i > 0 {
      assert !rules[0].applies(req);
      assert rules[1..][i - 1] == rules[i];
      FirstMatchAt(rules[1..], req, fallback, i - 1);
    }
  }

  /** First-match semantics: the result is the strategy of an applying rule with no
      applying rule before it, or the fallback exactly when no rule applies. */
  lemma {:induction false} FirstMatchIsFirst(rules: seq<Rule>, req: Request, fallback: Strategy)
    ensures (forall i :: 0 <= i < |rules| ==> !rules[i].applies(req)) ==>
              FirstMatch(rules, req, fallback) == fallback
    ensures forall i :: 0 <= i < |rules| && rules[i].applies(req) &&
                        (forall j :: 0 <= j < i ==> !rules[j].applies(req)) ==>
              FirstMatch(rules, req, fallback) == rules[i].strategy
    decreases |rules|
  {
    if |rules| > 0 && !rules[0].applies(req) {
      FirstMatchIsFirst(rules[1..], req, fallback);
    }
    forall i | 0 <= i < |rules| && rules[i].applies(req) &&
               (forall j :: 0 <= j < i ==> !rules[j].applies(req))
      ensures FirstMatch(rules, req, fallback) == rules[i].strategy
    {
      FirstMatchAt(rules, req, fallback, i);
    }
  }

  /** Routing is the ordered rule list: every intercepted request gets exactly the
      strategy of the first rule that applies, and `standardFetch` when none does. */
  lemma RouteIsOrderedRules(req: Request)
    requires Intercepts(req)
    ensures RouteOf(req) == Use(FirstMatch(Rules(), req, Standard))
  {
  }

  /** Priority, stated per strategy: each strategy is chosen exactly when its predicate
      holds and no earlier predicate does. */
  lemma RoutePriority(req: Request)
    requires Intercepts(req)
    ensures RouteOf(req) == Use(Document) <==> IsMainDocument(req)
    ensures RouteOf(req) == Use(CacheFirst) <==> !IsMainDocument(req) && IsStaticAsset(req)
    ensures RouteOf(req) == Use(NetworkFirst) <==>
              !IsMainDocument(req) && !IsStaticAsset(req) && IsApiRequest(req)
    ensures RouteOf(req) == Use(Standard) <==>
              !IsMainDocument(req) && !IsStaticAsset(req) && !IsApiRequest(req)
  {
  }

  /** A backend URL ending in `/` is served as a document, never network-first, whatever
      else it contains. */
  lemma BackendRootIsDocument(req: Request)
    requires Intercepts(req) && IsApiRequest(req) && EndsWith(req.url, "/")
    ensures RouteOf(req) == Use(Document)
  {
  }

  /** A backend URL that is not a document and contains `.js` is served cache-first,
      never network-first. */
  lemma BackendScriptIsStatic(req: Request)
    requires Intercepts(req) && !IsMainDocument(req) && IsApiRequest(req) && Includes(req.url, ".js")
    ensures RouteOf(req) == Use(CacheFirst)
  {
  }

  /** The last two static-asset markers add nothing: both `manifest.json` and
      `cdn.jsdelivr.net` contain `.js`, so the first test already holds for them. */
  lemma StaticMarkersSubsumed(url: string)
    ensures Includes(url, "manifest.json") ==> Includes(url, ".js")
    ensures Includes(url, "cdn.jsdelivr.net") ==> Includes(url, ".js")
  {
    if Includes(url, "manifest.json") {
      assert "manifest.json"[8..11] == ".js";
      IncludesWithin(url, "manifest.json", ".js", 8);
    }
    if Includes(url, "cdn.jsdelivr.net") {
      assert "cdn.jsdelivr.net"[3..6] == ".js";
      IncludesWithin(url, "cdn.jsdelivr.net", ".js", 3);
    }
  }
}

=== FILE: strategies.dfy ===
/** The four retrieval strategies. Each is a pure function of the cache storage, the
    request and the outcome of the one fetch it may issue, and returns the response it
    serves together with the storage after its cache writes. Writes that sw.js issues
    fire-and-forget are taken to complete within the same step. */
module Strategies {
  import opened Wrappers
  import opened Strings
  import opened Http
  import opened CacheStore
  import opened Config

  datatype Served = Served(response: Response, storage: Storage)

  /** The built-in offline page `getOfflinePage()`, served as HTML. */
  function OfflinePageResponse(): (r: Response)
    ensures r.Ok() && r.body == OfflinePage
    ensures r.headers.Keys == {ContentType} && r.headers[ContentType] == "text/html"
  {
    Response(200, "", map[ContentType := "text/html"], OfflinePage)
  }

  const FallbackJs := "console.log(\"Fallback JS\");"
  const FallbackCss := "/* Fallback CSS */"

  /** The JSON error of the API fallback when nothing is cached. */
  function ApiOfflineResponse(): (r: Response)
    ensures r.status == 503 && r.body.Json? && r.body.offline && !r.body.cached
  {
    Response(503, "", map[ContentType := "application/json"], Json("Network unavailable", true, false))
  }

  /** A cached API response rebuilt with `X-Cache-Status: stale` added to its headers. */
  function MarkStale(cached: Response): (r: Response)
    ensures r.status == cached.status && r.statusText == cached.statusText && r.body == cached.body
    ensures r.headers.Keys == cached.headers.Keys + {CacheStatusHeader}
    ensures r.headers[CacheStatusHeader] == "stale"
    ensures forall h :: h in cached.headers && h != CacheStatusHeader ==> r.headers[h] == cached.headers[h]
  {
    Response(cached.status, cached.statusText, cached.headers[CacheStatusHeader := "stale"], cached.body)
  }

  /** `fastDocumentStrategy`: serve the cached document at once and refresh it in the
      background; without a cached copy, go to the network; when that fails, fall back
      to the cached `./index.html`, and then to the offline page. */
  function FastDocumentStrategy(s: Storage, dir: string, req: Request, net: Network): (r: Served)
    // a hit is served whatever the network does; the refresh may only store an ok response
    ensures KeyOf(req.url) in PartitionOf(s, StaticCache) ==>
              && r.response == PartitionOf(s, StaticCache)[KeyOf(req.url)]
              && (net.Reply? && net.response.Ok() ==>
                    KeyOf(req.url) in PartitionOf(r.storage, StaticCache) && PartitionOf(r.storage, StaticCache)[KeyOf(req.url)] == net.response)
              && (!(net.Reply? && net.response.Ok()) ==> r.storage == Open(s, StaticCache))
    // a miss answered by the network returns that answer and caches it only when ok
    ensures KeyOf(req.url) !in PartitionOf(s, StaticCache) && net.Reply? ==>
              && r.response == net.response
              && (KeyOf(req.url) in PartitionOf(r.storage, StaticCache) <==> net.response.Ok())
              && (net.response.Ok() ==> PartitionOf(r.storage, StaticCache)[KeyOf(req.url)] == net.response)
    // a miss the network fails: the cached index page, else the offline page
    ensures KeyOf(req.url) !in PartitionOf(s, StaticCache) && net.Failure? ==>
              && r.storage == Open(s, StaticCache)
              && (KeyOf(Resolve(dir, IndexHtml)) in PartitionOf(s, StaticCache) ==>
                    r.response == PartitionOf(s, StaticCache)[KeyOf(Resolve(dir, IndexHtml))])
              && (KeyOf(Resolve(dir, IndexHtml)) !in PartitionOf(s, StaticCache) ==> r.response == OfflinePageResponse())
    ensures OnlyWrites(s, r.storage, StaticCache, KeyOf(req.url))
    ensures KeepsOrWritesOk(s, r.storage, StaticCache, KeyOf(req.url))
  {
    var s1 := Open(s, StaticCache);
    match Match(s1, StaticCache, req.url)
    case Some(cached) =>
      var refreshed := if net.Reply? && net.response.Ok() then Put(s1, StaticCache, req.url, net.response) else s1;
      Served(cached, refreshed)
    case None =>
      match net
      case Reply(resp) =>
        Served(resp, if resp.Ok() then Put(s1, StaticCache, req.url, resp) else s1)
      case Failure =>
        match Match(s1, StaticCache, Resolve(dir, IndexHtml))
        case Some(fallback) => Served(fallback, s1)
        case None => Served(OfflinePageResponse(), s1)
  }

  /** The typed fallback of the cache-first strategy when the network fails. */
  function StaticFallback(url: string): (r: Response)
    ensures Includes(url, ".js") ==> r.status == 200 && r.body == Text(FallbackJs)
                                     && r.headers == map[ContentType := "application/javascript"]
    ensures !Includes(url, ".js") && Includes(url, ".css") ==>
              r.status == 200 && r.body == Text(FallbackCss) && r.headers == map[ContentType := "text/css"]
    ensures !Includes(url, ".js") && !Includes(url, ".css") ==> r.status == 503 && r.body == Text("Offline")
  {
    if Includes(url, ".js") then TextResponse(200, FallbackJs, map[ContentType := "application/javascript"])
    else if Includes(url, ".css") then TextResponse(200, FallbackCss, map[ContentType := "text/css"])
    else TextResponse(503, "Offline", map[])
  }

  /** The network answer is stored by the cache-first strategy exactly when it is ok
      and below 400; the second test adds nothing to the first. */
  predicate StaticStorable(resp: Response)
  {
    resp.Ok() && resp.status < 400
  }

  /** The cache-first guard: `status < 400` follows from `ok`, so exactly the ok
      answers are stored. */
  lemma StaticStorableIsOk(resp: Response)
    ensures StaticStorable(resp) <==> resp.Ok()
  {
  }

  /** `.json` contains `.js`: a JSON asset whose fetch fails, the manifest among them,
      gets the script fallback. */
  lemma JsonGetsScriptFallback(url: string)
    requires Includes(url, ".json")
    ensures StaticFallback(url).body == Text(FallbackJs)
    ensures StaticFallback(url).headers[ContentType] == "application/javascript"
  {
  }

  /** `ultraCacheFirstStrategy`: a cached copy is served without touching the network;
      otherwise the network answer is served, and cached when it is storable; when the
      network fails, a typed fallback is served. */
  function UltraCacheFirstStrategy(s: Storage, req: Request, net: Network): (r: Served)
    ensures KeyOf(req.url) in PartitionOf(s, StaticCache) ==>
              r.response == PartitionOf(s, StaticCache)[KeyOf(req.url)] && r.storage == Open(s, StaticCache)
    ensures KeyOf(req.url) !in PartitionOf(s, StaticCache) && net.Reply? ==>
              && r.response == net.response
              && (KeyOf(req.url) in PartitionOf(r.storage, StaticCache) <==> net.response.Ok())
              && (net.response.Ok() ==> PartitionOf(r.storage, StaticCache)[KeyOf(req.url)] == net.response)
    ensures KeyOf(req.url) !in PartitionOf(s, StaticCache) && net.Failure? ==>
              r.response == StaticFallback(req.url) && r.storage == Open(s, StaticCache)
    ensures OnlyWrites(s, r.storage, StaticCache, KeyOf(req.url))
    ensures KeepsOrWritesOk(s, r.storage, StaticCache, KeyOf(req.url))
  {
    var s1 := Open(s, StaticCache);
    match Match(s1, StaticCache, req.url)
    case Some(cached) => Served(cached, s1)
    case None =>
      match net
      case Reply(resp) =>
        Served(resp, if StaticStorable(resp) then Put(s1, StaticCache, req.url, resp) else s1)
      case Failure => Served(StaticFallback(req.url), s1)
  }

  /** `networkFirstStrategy`: the network answer is served as it is and cached in the
      dynamic cache when ok; when the network fails, the cached copy is served marked
      stale, or a JSON 503 when there is none. */
  function NetworkFirstStrategy(s: Storage, req: Request, net: Network): (r: Served)
    ensures net.Reply? ==> r.response == net.response
    ensures net.Reply? && net.response.Ok() ==>
              KeyOf(req.url) in PartitionOf(r.storage, DynamicCache) && PartitionOf(r.storage, DynamicCache)[KeyOf(req.url)] == net.response
    ensures net.Reply? && !net.response.Ok() ==> r.storage == s
    ensures net.Failure? && KeyOf(req.url) in PartitionOf(s, DynamicCache) ==>
              r.response == MarkStale(PartitionOf(s, DynamicCache)[KeyOf(req.url)])
    ensures net.Failure? && KeyOf(req.url) !in PartitionOf(s, DynamicCache) ==> r.response == ApiOfflineResponse()
    ensures net.Failure? ==> r.storage == Open(s, DynamicCache)
    ensures OnlyWrites(s, r.storage, DynamicCache, KeyOf(req.url))
    ensures KeepsOrWritesOk(s, r.storage, DynamicCache, KeyOf(req.url))
  {
    match net
    case Reply(resp) =>
      Served(resp, if resp.Ok() then Put(s, DynamicCache, req.url, resp) else s)
    case Failure =>
      var s1 := Open(s, DynamicCache);
      match Match(s1, DynamicCache, req.url)
      case Some(cached) => Served(MarkStale(cached), s1)
      case None => Served(ApiOfflineResponse(), s1)
  }

  /** `standardFetch`: the network answer, or a plain-text 503 when the fetch fails;
      no cache is read or written. */
  function StandardFetch(s: Storage, net: Network): (r: Served)
    ensures r.storage == s
    ensures net.Reply? ==> r.response == net.response
    ensures net.Failure? ==> r.response.status == 503 && r.response.body == Text("Offline")
  {
    match net
    case Reply(resp) => Served(resp, s)
    case Failure => Served(TextResponse(503, "Offline", map[]), s)
  }
}

=== FILE: strings.dfy ===
/** The two string tests the worker's predicates are written with:
    JavaScript's `String.prototype.includes` and `String.prototype.endsWith`. */
module Strings {

  /** `sub` occurs in `s` starting at index `i`. */
  predicate OccursAt(s: string, sub: string, i: int)
  {
    0 <= i && i + |sub| <= |s| && s[i..i + |sub|] == sub
  }

  /** `s.endsWith(suffix)`. */
  predicate EndsWith(s: string, suffix: string)
  {
    |suffix| <= |s| && s[|s| - |suffix|..] == suffix
  }

  /** An occurrence in `s[1..]` is an occurrence in `s`, one position later. */
  lemma OccursInTail(s: string, sub: string)
    requires |s| > 0
    ensures forall i :: 0 <= i ==> (OccursAt(s[1..], sub, i) <==> OccursAt(s, sub, i + 1))
  {
  }

  /** `s.includes(sub)`: true exactly when `sub` occurs somewhere in `s`. */
  function Includes(s: string, sub: string): (b: bool)
    ensures b <==> exists i :: OccursAt(s, sub, i)
    decreases |s|
  {
    if |s| < |sub| then false
    else if s[..|sub|] == sub then assert OccursAt(s, sub, 0); true
    else
      OccursInTail(s, sub);
      assert !OccursAt(s, sub, 0);
      assert forall i :: OccursAt(s, sub, i) ==> OccursAt(s[1..], sub, i - 1);
      Includes(s[1..], sub)
  }

  /** A string containing `sub` at a known place includes it. */
  lemma IncludesAt(s: string, sub: string, i: int)
    requires OccursAt(s, sub, i)
    ensures Includes(s, sub)
  {
  }

  /** `prefix + sub` includes `sub`, whatever the prefix. */
  lemma IncludesSuffix(prefix: string, sub: string)
    ensures Includes(prefix + sub, sub)
  {
    var s := prefix + sub;
    assert s[|prefix|..|prefix| + |sub|] == sub;
    IncludesAt(s, sub, |prefix|);
  }

  /** `prefix + tail` ends with whatever `tail` ends with. */
  lemma EndsWithAppend(prefix: string, tail: string, suffix: string)
    requires |suffix| <= |tail|
    ensures EndsWith(prefix + tail, suffix) <==> EndsWith(tail, suffix)
  {
  }

  /** An occurrence inside an occurrence: when `big` occurs in `s` at `i` and `small`
      occurs in `big` at `j`, then `small` occurs in `s` at `i + j`. */
  lemma OccursWithin(s: string, big: string, i: int, small: string, j: int)
    requires OccursAt(s, big, i) && OccursAt(big, small, j)
    ensures OccursAt(s, small, i + j)
  {
    var window := s[i..i + |big|];
    assert window == big;
    forall m | 0 <= m < |small|
      ensures s[i + j + m] == small[m]
    {
      assert small[m] == big[j..j + |small|][m] == big[j + m] == window[j + m];
    }
  }

  /** Whatever includes `big` includes every string that occurs in `big`. */
  lemma IncludesWithin(s: string, big: string, small: string, j: int)
    requires Includes(s, big) && OccursAt(big, small, j)
    ensures Includes(s, small)
  {
    var i :| OccursAt(s, big, i);
    OccursWithin(s, big, i, small, j);
  }
}

=== FILE: sweeper.dfy ===
/** `cleanupCache`: the age-based sweep of the dynamic cache. An entry is dropped when its
    response carries a `date` header more than 24 hours older than `now`. Parsing the
    header is the host's `Date` parser, passed in as `parse` (`None` for an unparseable
    date, whose age comparison is always false). */
module Sweeper {
  import opened Wrappers
  import opened Http
  import opened CacheStore
  import opened Config

  /** The response date in milliseconds, when the `date` header is present, non-empty
      and parses. */
  function DateOf(resp: Response, parse: string -> Option<int>): (d: Option<int>)
    ensures DateHeader !in resp.headers || resp.headers[DateHeader] == "" ==> d.None?
    ensures DateHeader in resp.headers && resp.headers[DateHeader] != "" ==> d == parse(resp.headers[DateHeader])
  {
    if DateHeader in resp.headers && resp.headers[DateHeader] != "" then parse(resp.headers[DateHeader])
    else None
  }

  /** The entry is older than the maximum age: strictly more than 24 hours before `now`. */
  function Expired(resp: Response, now: int, parse: string -> Option<int>): (b: bool)
    ensures b ==> DateHeader in resp.headers && resp.headers[DateHeader] != ""
    ensures b <==> DateOf(resp, parse).Some? && DateOf(resp, parse).value + MaxAgeMs < now
  {
    DateOf(resp, parse).Some? && now - DateOf(resp, parse).value > MaxAgeMs
  }

  /** The sweep as a function of the storage: the dynamic cache (opened, so created
      when absent) loses exactly its expired entries. */
  function Sweep(s: Storage, now: int, parse: string -> Option<int>): (t: Storage)
    ensures t.Keys == s.Keys + {DynamicCache}
    ensures forall n :: n in s && n != DynamicCache ==> t[n] == s[n]
    ensures forall k :: k in t[DynamicCache] <==>
              k in PartitionOf(s, DynamicCache) && !Expired(PartitionOf(s, DynamicCache)[k], now, parse)
    ensures forall k :: k in t[DynamicCache] ==> t[DynamicCache][k] == PartitionOf(s, DynamicCache)[k]
  {
    var p := PartitionOf(s, DynamicCache);
    s[DynamicCache := map k | k in p && !Expired(p[k], now, parse) :: p[k]]
  }

  /** `cleanupCache`, entry by entry: every key of the dynamic cache is visited once and
      deleted when its response is expired. */
  method CleanupCache(s: Storage, now: int, parse: string -> Option<int>) returns (t: Storage)
    ensures t == Sweep(s, now, parse)
  {
    var p := PartitionOf(s, DynamicCache);
    var kept := p;
    var pending := p.Keys;
    while pending != {}
      invariant pending <= p.Keys
      invariant forall k :: k in kept <==> k in p && (k in pending || !Expired(p[k], now, parse))
      invariant forall k :: k in kept ==> kept[k] == p[k]
      decreases pending
    {
      var k :| k in pending;
      if Expired(p[k], now, parse) {
        kept := map k' | k' in kept && k' != k :: kept[k'];
      }
      pending := pending - {k};
    }
    assert kept == map k | k in p && !Expired(p[k], now, parse) :: p[k];
    t := s[DynamicCache := kept];
  }

  /** Sweeping twice at the same `now` removes nothing the first sweep left. */
  lemma SweepIdempotent(s: Storage, now: int, parse: string -> Option<int>)
    ensures Sweep(Sweep(s, now, parse), now, parse) == Sweep(s, now, parse)
  {
    var t := Sweep(s, now, parse);
    var u := Sweep(t, now, parse);
    assert u[DynamicCache] == t[DynamicCache];
  }

  /** An entry without a usable date survives any number of sweeps, at any times. */
  lemma {:induction false} UndatedSurvives(s: Storage, times: seq<int>, parse: string -> Option<int>, k: string)
    requires k in PartitionOf(s, DynamicCache)
    requires DateOf(PartitionOf(s, DynamicCache)[k], parse).None?
    ensures k in PartitionOf(SweepAll(s, times, parse), DynamicCache)
    ensures PartitionOf(SweepAll(s, times, parse), DynamicCache)[k] == PartitionOf(s, DynamicCache)[k]
    decreases |times|
  {
    if |times| > 0 {
      UndatedSurvives(Sweep(s, times[0], parse), times[1..], parse, k);
    }
  }

  /** One sweep per element of `times`, in order. */
  function SweepAll(s: Storage, times: seq<int>, parse: string -> Option<int>): Storage
    decreases |times|
  {
    if |times| == 0 then s else SweepAll(Sweep(s, times[0], parse), times[1..], parse)
  }

  /** An entry dated more than 24 hours before `now` is gone after a sweep at `now`;
      one dated exactly 24 hours before stays. */
  lemma SweepBoundary(s: Storage, now: int, parse: string -> Option<int>, k: string)
    requires k in PartitionOf(s, DynamicCache)
    requires DateOf(PartitionOf(s, DynamicCache)[k], parse).Some?
    ensures k !in Sweep(s, now, parse)[DynamicCache] <==>
              DateOf(PartitionOf(s, DynamicCache)[k], parse).value < now - MaxAgeMs
  {
  }
}

=== FILE: worker.dfy ===
/** The worker as a whole: the fetch handler that routes each request to its strategy,
    the events that change the cache storage, and the properties that hold across them. */
module Worker {
  import opened Wrappers
  import opened Strings
  import opened Http
  import opened CacheStore
  import opened Config
  import opened Router
  import opened Strategies
  import opened Lifecycle
  import opened Sweeper

  /** What the fetch handler does with one request: leave it to the browser, or respond
      and leave the storage as given. */
  datatype Handling = NotIntercepted | Responded(response: Response, storage: Storage)

  /** The fetch handler. `dir` is the directory URL of the worker script and `net` the
      outcome of the one fetch the chosen strategy may issue. */
  function HandleFetch(s: Storage, dir: string, req: Request, net: Network): (h: Handling)
    ensures h.NotIntercepted? <==> req.httpMethod != "GET" || IsExcluded(req)
    // what is written: at most the request's key, in the strategy's cache, and only ok
    ensures RouteOf(req) == Use(Document) || RouteOf(req) == Use(CacheFirst) ==>
              && h.Responded?
              && OnlyWrites(s, h.storage, StaticCache, KeyOf(req.url))
              && KeepsOrWritesOk(s, h.storage, StaticCache, KeyOf(req.url))
    ensures RouteOf(req) == Use(NetworkFirst) ==>
              && h.Responded?
              && OnlyWrites(s, h.storage, DynamicCache, KeyOf(req.url))
              && KeepsOrWritesOk(s, h.storage, DynamicCache, KeyOf(req.url))
    ensures RouteOf(req) == Use(Standard) ==> h.Responded? && h.storage == s
    ensures (RouteOf(req) == Use(Document) || RouteOf(req) == Use(CacheFirst)) && net.Failure? ==>
              h.storage == Open(s, StaticCache)
    ensures RouteOf(req) == Use(NetworkFirst) && net.Failure? ==> h.storage == Open(s, DynamicCache)
    // what is stored: an ok network answer, except over a static-cache hit of the
    // cache-first strategy, which leaves the storage as it is
    ensures RouteOf(req) == Use(Document) && net.Reply? && net.response.Ok() ==>
              && KeyOf(req.url) in PartitionOf(h.storage, StaticCache)
              && PartitionOf(h.storage, StaticCache)[KeyOf(req.url)] == net.response
    ensures RouteOf(req) == Use(CacheFirst) && KeyOf(req.url) !in PartitionOf(s, StaticCache)
            && net.Reply? && net.response.Ok() ==>
              && KeyOf(req.url) in PartitionOf(h.storage, StaticCache)
              && PartitionOf(h.storage, StaticCache)[KeyOf(req.url)] == net.response
    ensures RouteOf(req) == Use(CacheFirst) && KeyOf(req.url) in PartitionOf(s, StaticCache) ==> h.storage == s
    ensures RouteOf(req) == Use(NetworkFirst) && net.Reply? && net.response.Ok() ==>
              && KeyOf(req.url) in PartitionOf(h.storage, DynamicCache)
              && PartitionOf(h.storage, DynamicCache)[KeyOf(req.url)] == net.response
    // what is served: a static-cache hit for documents and static assets, else the
    // network answer when there is one, else the strategy's fallback
    ensures (RouteOf(req) == Use(Document) || RouteOf(req) == Use(CacheFirst))
            && KeyOf(req.url) in PartitionOf(s, StaticCache) ==>
              h.Responded? && h.response == PartitionOf(s, StaticCache)[KeyOf(req.url)]
    ensures h.Responded? && net.Reply?
            && !((RouteOf(req) == Use(Document) || RouteOf(req) == Use(CacheFirst))
                 && KeyOf(req.url) in PartitionOf(s, StaticCache)) ==>
              h.response == net.response
    ensures RouteOf(req) == Use(Document) && KeyOf(req.url) !in PartitionOf(s, StaticCache) && net.Failure? ==>
              h.response == (if KeyOf(Resolve(dir, IndexHtml)) in PartitionOf(s, StaticCache)
                             then PartitionOf(s, StaticCache)[KeyOf(Resolve(dir, IndexHtml))]
                             else OfflinePageResponse())
    ensures RouteOf(req) == Use(CacheFirst) && KeyOf(req.url) !in PartitionOf(s, StaticCache) && net.Failure? ==>
              h.response == StaticFallback(req.url)
    ensures RouteOf(req) == Use(NetworkFirst) && net.Failure? ==>
              h.response == (if KeyOf(req.url) in PartitionOf(s, DynamicCache)
                             then MarkStale(PartitionOf(s, DynamicCache)[KeyOf(req.url)])
                             else ApiOfflineResponse())
    ensures RouteOf(req) == Use(Standard) && net.Failure? ==>
              h.response.status == 503 && h.response.body == Text("Offline")
  {
    match RouteOf(req)
    case PassThrough => NotIntercepted
    case Use(strategy) =>
      var r := match strategy
        case Document => FastDocumentStrategy(s, dir, req, net)
        case CacheFirst => UltraCacheFirstStrategy(s, req, net)
        case NetworkFirst => NetworkFirstStrategy(s, req, net)
        case Standard => StandardFetch(s, net);
      Responded(r.response, r.storage)
  }

  /** Every response stored in the worker's static and dynamic caches is ok. */
  ghost predicate Healthy(s: Storage)
  {
    AllOk(PartitionOf(s, StaticCache)) && AllOk(PartitionOf(s, DynamicCache))
  }

  /** The fetch handler only ever stores ok responses. */
  lemma HandlePreservesHealthy(s: Storage, dir: string, req: Request, net: Network)
    requires Healthy(s)
    ensures HandleFetch(s, dir, req, net).Responded? ==> Healthy(HandleFetch(s, dir, req, net).storage)
  {
    var h := HandleFetch(s, dir, req, net);
    var route := RouteOf(req);
    if route == Use(NetworkFirst) {
      OnlyWritesKeepsAllOk(s, h.storage, DynamicCache, KeyOf(req.url));
    } else if route == Use(Document) || route == Use(CacheFirst) {
      OnlyWritesKeepsAllOk(s, h.storage, StaticCache, KeyOf(req.url));
    }
  }

  /** The events that change the cache storage. */
  datatype Event =
    | FetchEvent(req: Request, net: Network)
    | InstallEvent(fetch: string -> Network)
    | ActivateEvent
    | CleanupEvent(now: int, parse: string -> Option<int>)

  /** The storage after one event. A request the handler does not claim changes
      nothing; install touches only the static cache, the sweep only the dynamic cache,
      and activation only deletes caches. */
  function Step(s: Storage, dir: string, e: Event): (t: Storage)
    ensures e.FetchEvent? && !Intercepts(e.req) ==> t == s
    ensures e.FetchEvent? ==> forall n :: n in s && n != StaticCache && n != DynamicCache ==> n in t && t[n] == s[n]
    ensures e.InstallEvent? ==> forall n :: n in s && n != StaticCache ==> n in t && t[n] == s[n]
    ensures e.CleanupEvent? ==> forall n :: n in s && n != DynamicCache ==> n in t && t[n] == s[n]
    ensures e.ActivateEvent? ==> t.Keys == s.Keys * CurrentNames && forall n :: n in t ==> t[n] == s[n]
  {
    match e
    case FetchEvent(req, net) =>
      var h := HandleFetch(s, dir, req, net);
      if h.Responded? then h.storage else s
    case InstallEvent(fetch) => Install(s, dir, fetch).storage
    case ActivateEvent => Activate(s)
    case CleanupEvent(now, parse) => Sweep(s, now, parse)
  }

  /** The storage after a sequence of events, in order. */
  function Run(s: Storage, dir: string, events: seq<Event>): Storage
    decreases |events|
  {
    if |events| == 0 then s else Run(Step(s, dir, events[0]), dir, events[1..])
  }

  /** Every event keeps the worker's caches free of non-ok responses. */
  lemma StepPreservesHealthy(s: Storage, dir: string, e: Event)
    requires Healthy(s)
    ensures Healthy(Step(s, dir, e))
  {
    match e
    case FetchEvent(req, net) => HandlePreservesHealthy(s, dir, req, net);
    case InstallEvent(fetch) =>
      var r := Install(s, dir, fetch);
      var p := PartitionOf(r.storage, StaticCache);
      if r.skipWaiting {
        forall k | k in p ensures p[k].Ok() {
          if k in CriticalKeys(dir) {
            assert Cacheable(fetch(k));
          } else {
            assert k in PartitionOf(s, StaticCache);
          }
        }
      }
    case ActivateEvent =>
    case CleanupEvent(now, parse) =>
  }

  /** Starting from healthy caches, any sequence of events leaves them healthy. */
  lemma {:induction false} RunPreservesHealthy(s: Storage, dir: string, events: seq<Event>)
    requires Healthy(s)
    ensures Healthy(Run(s, dir, events))
    decreases |events|
  {
    if |events| > 0 {
      StepPreservesHealthy(s, dir, events[0]);
      RunPreservesHealthy(Step(s, dir, events[0]), dir, events[1..]);
    }
  }

  /** The document fallback key is the key of the installed `index.html`. */
  lemma IndexHtmlIsCritical(dir: string)
    ensures Resolve(dir, IndexHtml) == dir + "index.html"
    ensures KeyOf(Resolve(dir, IndexHtml)) in CriticalKeys(dir)
  {
    assert CriticalKeys(dir)[1] == KeyOf(dir + "index.html");
  }

  /** With the index page cached, a failed document request for any other uncached page
      is answered with that index page and leaves the storage as it is. */
  lemma OfflineNavigationServesIndex(t: Storage, dir: string, req: Request)
    requires StaticCache in t
    requires RouteOf(req) == Use(Document)
    requires KeyOf(req.url) !in PartitionOf(t, StaticCache)
    requires KeyOf(dir + "index.html") in PartitionOf(t, StaticCache)
    ensures HandleFetch(t, dir, req, Failure)
              == Responded(PartitionOf(t, StaticCache)[KeyOf(dir + "index.html")], t)
  {
    IndexHtmlIsCritical(dir);
    assert Open(t, StaticCache) == t;
  }

  /** After a successful install, a navigation to any page not in the static cache is
      answered offline with the installed `index.html`. */
  lemma InstallThenOfflineNavigation(s: Storage, dir: string, fetch: string -> Network, req: Request)
    requires Install(s, dir, fetch).skipWaiting
    requires RouteOf(req) == Use(Document)
    requires KeyOf(req.url) !in PartitionOf(Install(s, dir, fetch).storage, StaticCache)
    ensures HandleFetch(Install(s, dir, fetch).storage, dir, req, Failure)
              == Responded(fetch(KeyOf(dir + "index.html")).response, Install(s, dir, fetch).storage)
  {
    var t := Install(s, dir, fetch).storage;
    var k := KeyOf(dir + "index.html");
    assert k in CriticalKeys(dir);
    assert k in PartitionOf(t, StaticCache) && PartitionOf(t, StaticCache)[k] == fetch(k).response;
    OfflineNavigationServesIndex(t, dir, req);
  }

  /** The manifest is not a document, so it is routed cache-first. */
  lemma ManifestIsStatic(dir: string, req: Request)
    requires Intercepts(req)
    requires req.url == dir + "manifest.json"
    requires req.mode != "navigate" && req.destination != "document"
    ensures RouteOf(req) == Use(CacheFirst)
  {
    EndsWithAppend(dir, "manifest.json", "/");
    EndsWithAppend(dir, "manifest.json", ".html");
    assert !IsMainDocument(req);
    IncludesSuffix(dir, "manifest.json");
  }

  /** After a successful install, the manifest is served from the static cache whatever
      the network does. */
  lemma InstallThenManifestFromCache(s: Storage, dir: string, fetch: string -> Network, req: Request, net: Network)
    requires Install(s, dir, fetch).skipWaiting
    requires Intercepts(req)
    requires req.url == dir + "manifest.json"
    requires req.mode != "navigate" && req.destination != "document"
    ensures HandleFetch(Install(s, dir, fetch).storage, dir, req, net)
              == Responded(fetch(KeyOf(dir + "manifest.json")).response, Install(s, dir, fetch).storage)
  {
    ManifestIsStatic(dir, req);
    var t := Install(s, dir, fetch).storage;
    var k := KeyOf(dir + "manifest.json");
    assert k in PartitionOf(t, StaticCache) && PartitionOf(t, StaticCache)[k] == fetch(k).response;
    assert Open(t, StaticCache) == t;
  }

  /** After a successful install, a navigation to an in-page route of the worker's root,
      `dir#...`, is answered with the installed root page whatever the network does:
      the fragment is not part of the cache key. */
  lemma InstallThenFragmentNavigation(s: Storage, dir: string, fetch: string -> Network, req: Request,
                                      fragment: string, net: Network)
    requires Install(s, dir, fetch).skipWaiting
    requires '#' !in dir && req.url == dir + "#" + fragment
    requires RouteOf(req) == Use(Document)
    ensures HandleFetch(Install(s, dir, fetch).storage, dir, req, net).response == fetch(dir).response
  {
    KeyOfFragment(dir, fragment);
    KeyOfIsPrefix(dir);
    assert dir in CriticalKeys(dir);
  }

  /** Cache-first determinism: once a static asset has been fetched with an ok response,
      the next request for it is served that response and issues no fetch. */
  lemma StaticServedFromCacheAfterFetch(s: Storage, req: Request, resp: Response, net: Network)
    requires KeyOf(req.url) !in PartitionOf(s, StaticCache)
    requires resp.Ok()
    ensures var t := UltraCacheFirstStrategy(s, req, Reply(resp)).storage;
            UltraCacheFirstStrategy(t, req, net) == Served(resp, t)
  {
  }

  /** A static hit does not depend on the network outcome. */
  lemma StaticHitIgnoresNetwork(s: Storage, req: Request, n1: Network, n2: Network)
    requires KeyOf(req.url) in PartitionOf(s, StaticCache)
    ensures UltraCacheFirstStrategy(s, req, n1) == UltraCacheFirstStrategy(s, req, n2)
  {
  }

  /** The API round trip: an ok answer cached by one request is what a later request
      gets when the network fails, with the same status and body, every original header,
      and the stale marker. */
  lemma ApiStaleRoundTrip(s: Storage, req: Request, resp: Response)
    requires resp.Ok()
    ensures var t := NetworkFirstStrategy(s, req, Reply(resp)).storage;
            var r := NetworkFirstStrategy(t, req, Failure).response;
            && r.status == resp.status && r.body == resp.body
            && r.headers[CacheStatusHeader] == "stale"
            && r.headers - {CacheStatusHeader} == resp.headers - {CacheStatusHeader}
  {
  }

  /** The document strategy serves a hit unchanged, and the background refresh replaces
      the entry only with an ok answer. */
  lemma DocumentHitThenRefresh(s: Storage, dir: string, req: Request, net: Network)
    requires RouteOf(req) == Use(Document)
    requires KeyOf(req.url) in PartitionOf(s, StaticCache)
    ensures var h := HandleFetch(s, dir, req, net);
            && h.response == PartitionOf(s, StaticCache)[KeyOf(req.url)]
            && PartitionOf(h.storage, StaticCache)[KeyOf(req.url)] ==
                 (if net.Reply? && net.response.Ok() then net.response else PartitionOf(s, StaticCache)[KeyOf(req.url)])
  {
  }
}

=== FILE: wrappers.dfy ===
/** Optional values: a cache lookup that may miss, a header date that may not parse. */
module Wrappers {

  datatype Option<+T> = None | Some(value: T)
}
